=== FILE: README.md ===
# Medication dispenser controller: a Dafny model

This project models the decision logic of a home medication dispenser
(`dispensing.py`) and the stepper-motor driver it shares with `stepper.py`.
The model covers these parts:

- The **due-time evaluator** (`check_medication_time`). It scans the schedule
  in insertion order and parses each `"HH:MM"`. It returns the first person whose
  slot today lies strictly within 60 s of `now`.
- The **dispense ledger** (`dispensed_today`, `add_dispense_record`). This is a map
  from date to the (person, time) slots given on that date. It only grows.
- **One pass of the orchestrator loop** in `main`:
  1. the due check;
  2. the already-dispensed short-circuit;
  3. the buzzer alert;
  4. the sensor read, with its 25.0/25.0 fallback;
  5. the recognition loop, which makes at most five attempts and counts a
     missing frame as an attempt (a failing capture command ends the process);
  6. the arg-max label selection and the decision at threshold 0.8;
  7. on recognition, the publish, the broker subscription and the ledger record.
- The **telemetry source** (`read_sensor_data`). It filters the available lines
  and takes the first one that decodes.
- The **actuation logic** (`stop_angle`, `step_motor`, `set_step`, the
  `step_sequence_fast` table). `stepper.py:30-47` and `dispensing.py:63-79` are
  the same code, except that only `stepper.py`'s `stop_angle` gives `direction` a
  default of 1 (both `step_motor`s do).
  `Stepper` models it once, and `StopAngle` always takes the direction explicitly.
  Each coil write is appended to a trace.
- The two gates. `on_message` turns the motor only for `{"action": "dispense"}`.
  `publish_to_aws` sends only when a client exists and the connect callback
  reported success.

The model follows the code where the intended design says otherwise:

- In the code, the recognised branch of the cycle does **not** turn the motor.
  Its `stop_angle` call is commented out at dispensing.py:261.
  `Dispenser.RunCycle` does not modify the motor. The only live actuation is
  `Dispenser.OnMessage`.
- Without a broker client, `main` carries on: the `return` at line 193 is
  commented out. A recognition then fails at `mqtt_client.subscribe` (line 267)
  before `add_dispense_record` (line 268). The model records this as
  `Aborted(NoClient)`, and `NoClientNeverRecords` proves that nothing is ever
  recorded in that case.
- `main` reads the clock twice. The due check uses `now` (line 207). The ledger
  lookup uses the date of a second read (line 212). The record goes under the
  first date (line 268). `Dispenser.RunCycle` takes both values separately, and
  "## Findings" shows the slot recorded twice when midnight falls between them.
- `if person_due:` treats an empty person name as "nothing due".
- A decoded sensor line that is not a JSON object ends the process: only
  `JSONDecodeError` is caught, and `.get` raises on anything else. The same holds
  for an empty score dictionary, where `max` raises, for a failing capture
  command (`subprocess.run(..., check=True)` at line 124 raises), and for a
  schedule time that does not parse.

Modules: `Basics` (Option, JSON values), `Schedule`, `DispenseLedger`,
`Sensor`, `Stepper`, `Recognition`, `Controller`. The camera, classifier,
serial port and broker appear only as the values they deliver:

- per-attempt outcomes: a failing capture command, no frame from `cv2.imread`,
  malformed output, or a score list;
- the list of lines available within the serial timeout, plus an abstract JSON
  parser;
- whether a client exists, and the result codes `on_connect` receives.

## Model

| member | source | states |
|---|---|---|
| Schedule.CheckMedicationTime | dispensing.py:156-164 | the loop over the schedule returns exactly the first-match scan's result (due entry, nobody due, or the parse error) |
| Schedule.FirstDueCharacterization | dispensing.py:158-164 | nobody is due iff every entry parses and none is within the window; someone is due iff some entry is the first hit, and then the result is that entry with now's date; an unparseable time reached before any hit aborts with that time |
| Schedule.SlotTimeOfFormat | dispensing.py:159-160 | every two-digit "HH:MM" with hour < 24 and minute < 60 parses to that hour and minute, second 0 |
| Schedule.NoMidnightWrap | dispensing.py:160-162 | a 00:00 slot is not due at 23:59:30 of the same day: windows do not wrap midnight |
| DispenseLedger.Occurs | dispensing.py:213-216 | the `any(...)` scan is true iff the (person, time) pair occurs in the date's list |
| DispenseLedger.Ledger.constructor | dispensing.py:49 | the ledger starts empty |
| DispenseLedger.Ledger.AddDispenseRecord | dispensing.py:173-176 | creates the date's list if absent and appends (person, time) to it; nothing else changes |
| DispenseLedger.AddedIsFound | dispensing.py:212-216 | after recording a slot, the already-dispensed check for that slot and date is true; on a date with no list it is false for every slot |
| DispenseLedger.AddedOnlyGrows | dispensing.py:173-176 | recording touches only its date; earlier entries stay in place; the list grows by exactly one (duplicates are kept); every slot found before is still found |
| Sensor.TrimStart | dispensing.py:135 | removes exactly the leading whitespace (the ASCII characters `str.strip()` removes) |
| Sensor.TrimEnd | dispensing.py:135 | removes exactly the trailing whitespace (the ASCII characters `str.strip()` removes) |
| Sensor.StripBlank | dispensing.py:135-136 | a stripped line is empty iff the raw line is all whitespace; a non-empty one starts and ends with non-whitespace |
| Sensor.TrimStartBlank | dispensing.py:135 | removing leading whitespace leaves nothing iff the line is all whitespace |
| Sensor.TrimEndBlank | dispensing.py:135 | removing trailing whitespace leaves nothing iff the line is all whitespace |
| Sensor.FirstReadingSpec | dispensing.py:133-146 | blank and undecodable lines are skipped, and the first well-formed line gives the result: its temperature and humidity fields, or the failure for a non-object |
| Sensor.NoLineNoReading | dispensing.py:128-147 | with no well-formed line the result is (None, None) |
| Sensor.NoNullReading | dispensing.py:139-140 | a reading never holds a JSON null: a null member reads as missing, as `dict.get` gives None for both |
| Sensor.ReadSensorData | dispensing.py:128-147 | no port gives (None, None); otherwise the polling loop returns the line-filtering result |
| Stepper.PhaseTableShape | stepper.py:23-28 | every phase energises exactly two coils, and cyclically consecutive phases share exactly one |
| Stepper.StepPhases | stepper.py:45 | a step uses the table in order when direction > 0, and the reversed table (phase 3 − i) otherwise, including direction 0 |
| Stepper.RunLength | stepper.py:44-47 | a run writes 4 × steps phases, and none when steps ≤ 0 |
| Stepper.RunAt | stepper.py:44-47 | write k of a run is table phase k mod 4 going forward, and phase 3 − (k mod 4) in reverse |
| Stepper.LastPhase | stepper.py:44-47 | a run of at least one step ends on [1,0,0,1] forward and on [1,1,0,0] in reverse |
| Stepper.StepsForExamples | stepper.py:30-32 | 60° gives 85 steps, 360° gives 510 and −60° gives −85; an angle gives 0 steps iff it is strictly within 12/17° of zero |
| Stepper.Motor.constructor | stepper.py:5-8 | the four outputs start low with no writes |
| Stepper.Motor.SetStep | stepper.py:35-39 | the outputs hold the phase just written, which is appended to the trace |
| Stepper.Motor.StepMotor | stepper.py:41-47 | division by zero iff rpm is given and rpm × steps = 0, with no write; with a negative rpm and steps > 0, one write of the first phase, which the coils keep, and then the failing sleep; otherwise exactly the run's writes, after which the coils hold the step's last phase (unchanged when steps ≤ 0) |
| Stepper.Motor.StopAngle | stepper.py:30-32 | drives the angle's truncated step count: division by zero iff that count times rpm is 0, with no write and the coils unchanged; with a negative rpm and a positive count, one write of the first phase, which the coils keep, and then the failing sleep; on completion, the writes are exactly that run and the coils hold the step's last phase (unchanged for a count ≤ 0) |
| Recognition.ArgMax | dispensing.py:252-253 | the selected score is ≥ every score, and strictly greater than every score before it (ties go to the first key) |
| Recognition.RecognitionLoop | dispensing.py:231-259 | the attempt loop gives exactly the recursive scan's outcome; every iteration, including a missing frame, uses up one attempt, and a failing capture command ends the loop |
| Recognition.ConfirmSpec | dispensing.py:235-282 | a recognition is of the due person, on an attempt ≤ 5 whose top label is the due person with confidence ≥ 0.8, after only failed attempts; exhaustion iff all five attempts fail; a crash (failing capture command or empty score map) aborts on its attempt, with that attempt's exception |
| Recognition.HitMeans | dispensing.py:250-259 | a successful attempt's top label is the due person, with confidence ≥ 0.8 and no other score larger |
| Recognition.CameraFailuresExhaust | dispensing.py:235-244 | five missing frames (`cv2.imread` gives None) use up the loop without a recognition; a failing capture command on the first attempt ends the loop at once with that error |
| Recognition.Scenarios | dispensing.py:256-280 | a 0.95 "alice" on the first attempt is recognised on attempt 1; a 0.9 "bob" on every attempt exhausts the loop when alice is due |
| Controller.DispenseRotation | dispensing.py:56-58 | the dispense command's 60° turn is 85 steps: 340 coil writes, ending on phase [1,0,0,1] |
| Controller.RecordOnlyOnRecognition | dispensing.py:256-280 | the ledger changes only when the cycle gives the due slot; then the slot was due, not yet recorded, a client existed, and an attempt ≤ 5 recognised the due person at confidence ≥ 0.8; exactly that slot is recorded under the due date |
| Controller.AttendingRecordsOnlyRecognition | dispensing.py:223-280 | once a slot is due and not yet given, the ledger changes only when the recognition loop hits the due person within five attempts and a client exists; then exactly that slot is added under the due date |
| Controller.ConcludingRecordsOnlyRecognition | dispensing.py:258-280 | after the loop, the slot is recorded only on a recognition with a client present, and every other ending leaves the ledger unchanged |
| Controller.AlreadyGivenSkipsEverything | dispensing.py:212-221 | the cycle short-circuits iff the due slot is in the checked date's list; it then has no alert, sensing, recognition, publish or record |
| Controller.SecondCheckShortCircuits | dispensing.py:207-221 | after a cycle gives a slot, a later cycle on the same date that finds the same slot due, and whose ledger lookup reads that same date, short-circuits and changes nothing, whatever its sensor and camera see |
| Controller.MidnightDoubleRecord | dispensing.py:207-268 | as written: alice's 23:59 slot given at 23:58:30 on day d is given again at 23:59:59.999999 when the second clock read lands on d + 1, and day d's list then holds the slot twice |
| Controller.LateSlotDue | dispensing.py:158-164 | a 23:59 slot is due at 23:58:30 and still at 23:59:59.999999 of the same day |
| Controller.IntendedCycleRecordsOnce | dispensing.py:207-221 | with the ledger looked up under the due check's own date, a later pass on the same date that finds a given slot due records nothing and has no effects |
| Controller.NoClientNeverRecords | dispensing.py:264-268 | without a broker client, no cycle records or gives a dose; a skipped publish happens exactly when the subscribe failure aborts the cycle |
| Controller.ConcludingWithoutClient | dispensing.py:264-268 | without a client the end of the cycle records nothing, and a skipped publish happens exactly when the subscribe failure aborts it |
| Controller.SensorFailureDoesNotBlock | dispensing.py:226-229 | with no serial port, a due and unrecorded slot that is recognised is still given, and 25.0/25.0 is published |
| Controller.PublishedNeverNull | dispensing.py:226-229 | every telemetry a cycle publishes has non-null temperature and humidity: a missing port, a timeout or a missing or null member gives the 25.0 fallback |
| Controller.ExhaustionRecordsNothing | dispensing.py:282-284 | when all five attempts fail, the cycle ends unrecognised after one alert, with the ledger unchanged |
| Controller.AliceScenario | dispensing.py:207-272 | alice due at 08:00, checked at 08:00:30, empty ledger: a 0.95 "alice" gives one record for today, one publish and one subscription; five 0.9 "bob" give no record |
| Controller.AliceGiven | dispensing.py:207-272 | the "alice" half of AliceScenario: given on attempt 1, one record, one publish with the 25.0 fallback, one subscription |
| Controller.BobNotRecognized | dispensing.py:207-284 | the "bob" half of AliceScenario: five wrong-person attempts leave the ledger empty after one alert |
| Controller.MorningSlotDue | dispensing.py:158-164 | an 08:00 slot is due at 08:00:30 |
| Controller.Dispenser.constructor | dispensing.py:46-49 | the start state: empty ledger, a fresh motor with no writes and all four outputs low, `mqtt_connected` None, no effects, and whether `setup_aws_iot` returned a client (line 190) |
| Controller.Dispenser.OnConnect | dispensing.py:81-88 | `mqtt_connected` becomes True for result code 0 and False for any other code |
| Controller.Dispenser.PublishToAws | dispensing.py:107-121 | one effect is added: the publish when a client exists and the connected flag is True (the `CanPublish` gate), the skip otherwise |
| Controller.Dispenser.OnMessage | dispensing.py:51-61 | the motor turns (60°, forward, 50 rpm) iff the payload is an object whose "action" is "dispense", ending with the coils on [1,0,0,1]; otherwise the motor's outputs and trace are unchanged |
| Controller.Dispenser.RunCycle | dispensing.py:207-284 | the cycle's result, ledger and effects are exactly the cycle definition's; the motor is never written |
| Controller.Dispenser.Attend | dispensing.py:223-250 | alert, sensing with fallback and the recognition loop give the attending stage's result, ledger and effects |
| Controller.Dispenser.Conclude | dispensing.py:256-284 | after the loop: publish, subscribe and record on a recognition; no record otherwise |

## Findings

| source | as written | input that shows it | evidently intended | confidence | as-written member | corrected member |
|---|---|---|---|---|---|---|
| dispensing.py:207-216, 268 | the already-dispensed lookup uses the date of a second clock read (line 212), while the record goes under the due check's date (line 268) | schedule {"alice": "23:59"}, empty ledger; given at 23:58:30 on day d; checked again at 23:59:59.999999 on day d with the second read landing on d + 1 | a slot is given at most once per date: look the ledger up under the due check's own date | medium: needs midnight between two reads microseconds apart; not executed | Controller.MidnightDoubleRecord | Controller.IntendedCycleRecordsOnce |

`Dispenser.RunCycle` keeps the two dates apart, as the code does; `IntendedCycle`
is the same cycle with one clock read.

## Left out

- Camera capture (`rpicam-jpeg`, `cv2.imread`) and the Edge Impulse runner are foreign calls. Each attempt's result is an input: the capture command failing, no frame from `cv2.imread`, malformed output, or the score list. An exception raised inside `runner.get_features_from_image` or `runner.classify` is not modelled.
- A classifier result that has a "result" key but no "classification" inside it raises KeyError. That case is not modelled, and `Malformed` stands only for the handled shape check.
- Score dictionaries are sequences of (label, score) pairs in iteration order. Nothing requires their labels to be distinct.
- Serial port handling, `in_waiting`, UTF-8 decoding errors and the 5 s / 0.1 s polling timing are not modelled. The timeout becomes the finite list of lines that arrive in time.
- `json.loads` is an abstract parser from a line to an optional JSON value.
- MQTT/TLS setup, `on_connect` (which runs on the broker's thread), `on_publish`, payload serialisation, publish return codes and the `strftime` date/time stamps are network plumbing. `mqtt_connected` starts as None; `Dispenser.OnConnect` models the callback's update, but not the broker thread on which it runs or when it runs relative to a cycle.
- All sleeps, the buzzer (only its `Alert` effect is kept) and the LED are timing and hardware. So is the real-valued `delay` beyond its division-by-zero and negative-sleep failures.
- The endless `while True` loop and its `KeyboardInterrupt` shutdown are not modelled. One pass is modelled. `SecondCheckShortCircuits` relates two passes.
- Schedule.SlotTime: `int()` is modelled only on ASCII digit strings. Python also accepts surrounding whitespace, a sign, underscores and non-ASCII digits, but the schedule holds plain "HH:MM" constants.
- TrimStart: removes the ASCII whitespace `str.strip()` removes (space, 0x09-0x0D, 0x1C-0x1F) but not the non-ASCII whitespace it also removes (U+0085, U+00A0, U+2000-U+200A and others), because serial lines from the sensor are ASCII.
- TrimEnd: the same restriction to ASCII whitespace as TrimStart.
- Stepper.StepsFor: the step count is the exact quotient truncated toward zero. Floating-point rounding of `angle/360*510` is not modelled.
- Recognition.Decide: confidences are exact reals compared with 0.8. The binary double nearest 0.8 is not modelled.
- The effects of the recognised branch (publish, subscribe, record) run once the loop exits. In the code they run inside the last iteration. The loop ends in that iteration either way, so the order of effects is the same.
- mqtt.py, serial_test.py, testLED.py, pi_face_recognition.py and base.py are not part of this model. They repeat the driver loop with their own thresholds and step tables.

=== FILE: basics.dfy ===
/** Values shared by the controller's components: an optional value and the
    JSON values that the sensor transport and the broker deliver. */
module Basics {

  datatype Option<+T> = None | Some(value: T)

  /** A decoded JSON document. Object members are unordered; only lookup by key
      matters to the controller. */
  datatype Json =
    | JNull
    | JBool(b: bool)
    | JNumber(n: real)
    | JString(s: string)
    | JArray(items: seq<Json>)
    | JObject(fields: map<string, Json>)

  /** `dict.get(key)` on a decoded object: None when the key is absent or when
      its value is JSON null (both read as Python's None). */
  function Get(fields: map<string, Json>, key: string): Option<Json>
  {
    if key in fields && fields[key] != JNull then Some(fields[key]) else None
  }
}

=== FILE: controller.dfy ===
/** The dispensing orchestrator of dispensing.py: one pass of `main`'s loop
    (due check, ledger short-circuit, alert, sensing with fallback, recognition,
    and on recognition the publish and the ledger record), the `on_message`
    actuation gate and the `publish_to_aws` connectivity gate. The camera,
    classifier, serial port and broker appear only as the values they deliver. */
module Controller {
  import opened Basics
  import opened Schedule
  import opened DispenseLedger
  import opened Sensor
  import opened Stepper
  import opened Recognition

  /** The reading substituted when the sensor gives no temperature or humidity. */
  const FallbackReading: Json := JNumber(25.0)
  /** `on_message` turns the carousel by `stop_angle(60, 1)` at the default 50 rpm. */
  const DispenseAngle: real := 60.0
  const DispenseDirection: int := 1
  const DefaultRpm: real := 50.0
  const SubscribeTopic: string := "sensors"

  /** The payload `publish_to_aws` sends; the date and time stamps are left out. */
  datatype Telemetry = Telemetry(person: string, temperature: Json, humidity: Json)

  /** Observable effects of a cycle besides the ledger: the buzzer alert, a
      publish submitted or skipped, and the broker subscription. */
  datatype Effect = Alert | Published(telemetry: Telemetry) | PublishSkipped | Subscribed(topic: string)

  /** Exceptions that end `main` (only KeyboardInterrupt is caught there). */
  datatype Error =
    | BadScheduleTime(time: string)   // ValueError from parsing or `replace`
    | SensorNotObject(line: string)   // AttributeError: `.get` on a decoded non-object
    | CaptureCommandFailed            // CalledProcessError or OSError from `rpicam-jpeg`
    | EmptyScoreMap                   // ValueError: `max` of an empty dictionary
    | NoClient                        // AttributeError: `subscribe` on a missing client

  /** How one pass of the loop ends. */
  datatype CycleResult =
    | NothingDue
    | AlreadyGiven(person: string, time: string)
    | Given(person: string, time: string, attempts: nat)
    | NotRecognized(person: string, time: string)
    | Aborted(error: Error)

  /** The gate of `publish_to_aws`: a client exists and the connect callback has
      reported success (`mqtt_connected` starts as None). */
  predicate CanPublish(hasClient: bool, connected: Option<bool>)
  {
    hasClient && connected == Some(true)
  }

  function PublishEffect(hasClient: bool, connected: Option<bool>, t: Telemetry): Effect
  {
    if CanPublish(hasClient, connected) then Published(t) else PublishSkipped
  }

  /** Lines 228-229: a missing temperature or humidity replaces both with 25.0. */
  function WithFallback(temperature: Option<Json>, humidity: Option<Json>): (Json, Json)
  {
    if temperature.None? || humidity.None? then (FallbackReading, FallbackReading)
    else (temperature.value, humidity.value)
  }

  function SensorResultOf(port: Option<seq<string>>, parse: string -> Option<Json>): SensorResult
  {
    if port.None? then Reading(None, None) else FirstReading(port.value, parse)
  }

  /** The error that ends `main` when the recognition loop raises. */
  function CrashError(cause: Crash): Error
  {
    match cause
    case CaptureError => CaptureCommandFailed
    case EmptyScores => EmptyScoreMap
  }

  /** A cycle's result, the ledger after it, and the effects it adds. */
  datatype Step = Step(result: CycleResult, days: Days, effects: seq<Effect>)

  /** One pass of the loop. `now` is the instant of the due check; `checkDate`
      is the date of the second clock read that selects the ledger list to
      search. */
  function Cycle(schedule: seq<Entry>, now: Instant, checkDate: Date, days: Days,
                 port: Option<seq<string>>, parse: string -> Option<Json>,
                 outcomes: seq<Attempt>, hasClient: bool, connected: Option<bool>): Step
    requires |outcomes| == MaxAttempts
  {
    match FirstDue(now, schedule)
    case BadTime(t) => Step(Aborted(BadScheduleTime(t)), days, [])
    case NotDue => Step(NothingDue, days, [])
    case Due(p, t, d) =>
      if p == "" then Step(NothingDue, days, [])
      else if Dispensed(days, checkDate, p, t) then Step(AlreadyGiven(p, t), days, [])
      else Attending(p, t, d, days, port, parse, outcomes, hasClient, connected)
  }

  /** The cycle once slot (p, t) of date d is due and not yet given: alert, read
      the sensor with its fallback, run the recognition loop. */
  function Attending(p: string, t: string, d: Date, days: Days,
                     port: Option<seq<string>>, parse: string -> Option<Json>,
                     outcomes: seq<Attempt>, hasClient: bool, connected: Option<bool>): Step
    requires |outcomes| == MaxAttempts
  {
    match SensorResultOf(port, parse)
    case NotAnObject(line) => Step(Aborted(SensorNotObject(line)), days, [Alert])
    case Reading(tm, hm) =>
      var step := Concluding(p, t, d, days, WithFallback(tm, hm), Confirm(p, outcomes, 0), hasClient, connected);
      Step(step.result, step.days, [Alert] + step.effects)
  }

  /** The end of the cycle, given the loop's outcome: on a recognition, publish,
      subscribe and record the slot under the due check's date d. */
  function Concluding(p: string, t: string, d: Date, days: Days, readings: (Json, Json),
                      outcome: Outcome, hasClient: bool, connected: Option<bool>): Step
  {
    match outcome
    case Exhausted => Step(NotRecognized(p, t), days, [])
    case Crashed(_, cause) => Step(Aborted(CrashError(cause)), days, [])
    case Recognized(name, n) =>
      var publish := PublishEffect(hasClient, connected, Telemetry(name, readings.0, readings.1));
      if !hasClient then Step(Aborted(NoClient), days, [publish])
      else Step(Given(p, t, n), Added(days, d, p, t), [publish, Subscribed(SubscribeTopic)])
  }

  /** What `on_message` makes of a payload: undecodable, not an object, the
      dispense command, or anything else. */
  datatype Command = Undecodable | NotAnObjectCommand | DispenseCommand | OtherCommand

  function CommandOf(payload: Option<Json>): Command
  {
    match payload
    case None => Undecodable
    case Some(JObject(f)) => if Get(f, "action") == Some(JString("dispense")) then DispenseCommand else OtherCommand
    case Some(_) => NotAnObjectCommand
  }

  /** A dispense command turns the motor by 85 steps: 340 coil writes, ending
      with the coils on phase [1,0,0,1]. */
  lemma {:induction false} DispenseRotation()
    ensures StepsFor(DispenseAngle) == 85
    ensures |Run(StepsFor(DispenseAngle), DispenseDirection)| == 340
    ensures Run(StepsFor(DispenseAngle), DispenseDirection)[339] == Phase(1, 0, 0, 1)
  {
    StepsForExamples(DispenseAngle);
    RunLength(85, DispenseDirection);
    LastPhase(85, DispenseDirection);
  }

  /** The central safety property: the ledger gains a record only in a cycle that
      ends in a recognition of the person due, and then exactly that slot is
      recorded under the due check's date. Such a recognition happened on one of
      at most five attempts, whose top-scoring label was the due person at
      confidence 0.8 or more, after only failed attempts. Every other ending
      leaves the ledger as it was. */
  lemma {:induction false} RecordOnlyOnRecognition(schedule: seq<Entry>, now: Instant, checkDate: Date, days: Days,
                                     port: Option<seq<string>>, parse: string -> Option<Json>,
                                     outcomes: seq<Attempt>, hasClient: bool, connected: Option<bool>)
    requires |outcomes| == MaxAttempts
    ensures var s := Cycle(schedule, now, checkDate, days, port, parse, outcomes, hasClient, connected);
      !s.result.Given? ==> s.days == days
    ensures var s := Cycle(schedule, now, checkDate, days, port, parse, outcomes, hasClient, connected);
      s.result.Given? ==>
        var p, t, n := s.result.person, s.result.time, s.result.attempts;
        && FirstDue(now, schedule) == Due(p, t, now.date)
        && p != ""
        && !Dispensed(days, checkDate, p, t)
        && hasClient
        && 1 <= n <= MaxAttempts
        && Judge(p, outcomes[n - 1]) == Hit(p)
        && (forall j :: 0 <= j < n - 1 ==> Judge(p, outcomes[j]) == Miss)
        && s.days == Added(days, now.date, p, t)
  {
    FirstDueCharacterization(now, schedule);
    match FirstDue(now, schedule)
    case Due(p, t, d) =>
      assert d == now.date;
      if p != "" && !Dispensed(days, checkDate, p, t) {
        AttendingRecordsOnlyRecognition(p, t, d, days, port, parse, outcomes, hasClient, connected);
      }
    case NotDue =>
    case BadTime(_) =>
  }

  /** RecordOnlyOnRecognition once the slot is due and not yet given: only a
      recognition of p within the five attempts adds (p, t) under d. */
  lemma {:induction false} AttendingRecordsOnlyRecognition(p: string, t: string, d: Date, days: Days,
                                     port: Option<seq<string>>, parse: string -> Option<Json>,
                                     outcomes: seq<Attempt>, hasClient: bool, connected: Option<bool>)
    requires |outcomes| == MaxAttempts
    ensures var s := Attending(p, t, d, days, port, parse, outcomes, hasClient, connected);
      !s.result.Given? ==> s.days == days
    ensures var s := Attending(p, t, d, days, port, parse, outcomes, hasClient, connected);
      s.result.Given? ==>
        var n := s.result.attempts;
        && s.result.person == p && s.result.time == t
        && hasClient
        && 1 <= n <= MaxAttempts
        && Judge(p, outcomes[n - 1]) == Hit(p)
        && (forall j :: 0 <= j < n - 1 ==> Judge(p, outcomes[j]) == Miss)
        && s.days == Added(days, d, p, t)
  {
    match SensorResultOf(port, parse)
    case NotAnObject(_) =>
    case Reading(tm, hm) =>
      ConfirmSpec(p, outcomes, 0);
      var c := Confirm(p, outcomes, 0);
      ConcludingRecordsOnlyRecognition(p, t, d, days, WithFallback(tm, hm), c, hasClient, connected);
      var step := Concluding(p, t, d, days, WithFallback(tm, hm), c, hasClient, connected);
      assert Attending(p, t, d, days, port, parse, outcomes, hasClient, connected).result == step.result;
      assert Attending(p, t, d, days, port, parse, outcomes, hasClient, connected).days == step.days;
  }

  /** The end of the cycle records (p, t) under d only after a recognition, and
      only with a client. */
  lemma ConcludingRecordsOnlyRecognition(p: string, t: string, d: Date, days: Days, readings: (Json, Json),
                                         outcome: Outcome, hasClient: bool, connected: Option<bool>)
    ensures var s := Concluding(p, t, d, days, readings, outcome, hasClient, connected);
      !s.result.Given? ==> s.days == days
    ensures var s := Concluding(p, t, d, days, readings, outcome, hasClient, connected);
      s.result.Given? ==>
        outcome.Recognized? && hasClient && s.result == Given(p, t, outcome.attempts)
        && s.days == Added(days, d, p, t)
  {
  }

  /** The telemetry a cycle publishes never carries a null reading: a missing
      port, a timeout, a missing or null member all give the 25.0 fallback, and
      otherwise the sensor's own values are sent. */
  lemma {:induction false} PublishedNeverNull(schedule: seq<Entry>, now: Instant, checkDate: Date, days: Days,
                                port: Option<seq<string>>, parse: string -> Option<Json>,
                                outcomes: seq<Attempt>, hasClient: bool, connected: Option<bool>, tel: Telemetry)
    requires |outcomes| == MaxAttempts
    requires Published(tel) in Cycle(schedule, now, checkDate, days, port, parse, outcomes, hasClient, connected).effects
    ensures tel.temperature != JNull && tel.humidity != JNull
  {
    match FirstDue(now, schedule)
    case Due(p, t, d) =>
      assert p != "" && !Dispensed(days, checkDate, p, t);
      var r := SensorResultOf(port, parse);
      if port.Some? {
        NoNullReading(port.value, parse);
      }
      match r {
        case NotAnObject(_) =>
        case Reading(tm, hm) =>
          assert tm != Some(JNull) && hm != Some(JNull);
          var readings := WithFallback(tm, hm);
          assert readings.0 != JNull && readings.1 != JNull;
          var step := Concluding(p, t, d, days, readings, Confirm(p, outcomes, 0), hasClient, connected);
          assert Published(tel) in step.effects;
      }
    case NotDue =>
    case BadTime(_) =>
  }

  /** The ledger short-circuit: a cycle ends as already given exactly when the due
      slot is in the list of the check's date, and then it neither alerts, reads
      the sensor, runs recognition, publishes nor records. */
  lemma AlreadyGivenSkipsEverything(schedule: seq<Entry>, now: Instant, checkDate: Date, days: Days,
                                    port: Option<seq<string>>, parse: string -> Option<Json>,
                                    outcomes: seq<Attempt>, hasClient: bool, connected: Option<bool>)
    requires |outcomes| == MaxAttempts
    ensures var s := Cycle(schedule, now, checkDate, days, port, parse, outcomes, hasClient, connected);
      s.result.AlreadyGiven? <==>
        FirstDue(now, schedule).Due? && FirstDue(now, schedule).person != ""
        && Dispensed(days, checkDate, FirstDue(now, schedule).person, FirstDue(now, schedule).time)
    ensures var s := Cycle(schedule, now, checkDate, days, port, parse, outcomes, hasClient, connected);
      s.result.AlreadyGiven? ==> s.days == days && s.effects == []
  {
  }

  /** Idempotence over the due window: after a cycle that gives a slot, any later
      cycle on the same date whose due check finds the same slot, and whose
      second clock read (the ledger lookup) falls on that date too, is
      short-circuited, whatever its sensor and camera would have seen, and
      changes nothing. `MidnightDoubleRecord` shows the second read on the next
      date. */
  lemma {:induction false} SecondCheckShortCircuits(
      schedule: seq<Entry>, now: Instant, checkDate: Date, days: Days,
      port: Option<seq<string>>, parse: string -> Option<Json>,
      outcomes: seq<Attempt>, hasClient: bool, connected: Option<bool>,
      later: Instant, checkDate2: Date, port2: Option<seq<string>>, parse2: string -> Option<Json>,
      outcomes2: seq<Attempt>, connected2: Option<bool>)
    requires |outcomes| == MaxAttempts && |outcomes2| == MaxAttempts
    requires Cycle(schedule, now, checkDate, days, port, parse, outcomes, hasClient, connected).result.Given?
    requires later.date == now.date && checkDate2 == now.date
    requires FirstDue(later, schedule) == FirstDue(now, schedule)
    ensures var first := Cycle(schedule, now, checkDate, days, port, parse, outcomes, hasClient, connected);
      Cycle(schedule, later, checkDate2, first.days, port2, parse2, outcomes2, hasClient, connected2)
        == Step(AlreadyGiven(first.result.person, first.result.time), first.days, [])
  {
    var first := Cycle(schedule, now, checkDate, days, port, parse, outcomes, hasClient, connected);
    RecordOnlyOnRecognition(schedule, now, checkDate, days, port, parse, outcomes, hasClient, connected);
    AddedIsFound(days, now.date, first.result.person, first.result.time);
  }

  /** The slot is recorded under the due check's date (line 268) but looked up
      under the date of a second clock read (line 212). When midnight falls
      between the two reads, a slot given at 23:58:30 is given and recorded
      again at 23:59:59.999999 on the same date. */
  lemma {:induction false} MidnightDoubleRecord(d: Date, parse: string -> Option<Json>)
    ensures var schedule := [Entry("alice", "23:59")];
      var hit := [Scores([("alice", 0.95)]), NoFrame, NoFrame, NoFrame, NoFrame];
      var first := Cycle(schedule, Instant(d, (23 * 3600 + 58 * 60 + 30) * MicrosPerSecond), d,
                         map[], None, parse, hit, true, Some(true));
      var second := Cycle(schedule, Instant(d, MicrosPerDay - 1), d + 1,
                          first.days, None, parse, hit, true, Some(true));
      && first.result == Given("alice", "23:59", 1)
      && second.result == Given("alice", "23:59", 1)
      && RecordsOn(second.days, d) == [Record("alice", "23:59"), Record("alice", "23:59")]
  {
    var schedule := [Entry("alice", "23:59")];
    var hit := [Scores([("alice", 0.95)]), NoFrame, NoFrame, NoFrame, NoFrame];
    var now := Instant(d, (23 * 3600 + 58 * 60 + 30) * MicrosPerSecond);
    var later := Instant(d, MicrosPerDay - 1);
    LateSlotDue(d);
    Scenarios();
    var empty: Days := map[];
    AddedIsFound(empty, d, "alice", "23:59");
    SensorFailureDoesNotBlock(schedule, now, d, empty, parse, hit, "alice", "23:59", d, "alice", 1);
    var once := Added(empty, d, "alice", "23:59");
    AddedOnlyGrows(empty, d, "alice", "23:59");
    assert d + 1 !in once;
    AddedIsFound(once, d + 1, "alice", "23:59");
    SensorFailureDoesNotBlock(schedule, later, d + 1, once, parse, hit, "alice", "23:59", d, "alice", 1);
    AddedOnlyGrows(once, d, "alice", "23:59");
  }

  /** A "23:59" slot is due at 23:58:30 and still at 23:59:59.999999. */
  lemma LateSlotDue(d: Date)
    ensures FirstDue(Instant(d, (23 * 3600 + 58 * 60 + 30) * MicrosPerSecond), [Entry("alice", "23:59")])
      == Due("alice", "23:59", d)
    ensures FirstDue(Instant(d, MicrosPerDay - 1), [Entry("alice", "23:59")]) == Due("alice", "23:59", d)
  {
    SlotTimeOfFormat(23, 59);
    assert FormatHHMM(23, 59) == "23:59";
  }

  /** The cycle with the ledger looked up under the due check's own date: one
      clock read per pass. */
  function IntendedCycle(schedule: seq<Entry>, now: Instant, days: Days,
                         port: Option<seq<string>>, parse: string -> Option<Json>,
                         outcomes: seq<Attempt>, hasClient: bool, connected: Option<bool>): Step
    requires |outcomes| == MaxAttempts
  {
    Cycle(schedule, now, now.date, days, port, parse, outcomes, hasClient, connected)
  }

  /** With one clock read per pass, a slot is given at most once per date: a
      later pass on the same date that finds the same slot due records nothing,
      including at 23:59:59.999999. */
  lemma {:induction false} IntendedCycleRecordsOnce(
      schedule: seq<Entry>, now: Instant, days: Days,
      port: Option<seq<string>>, parse: string -> Option<Json>,
      outcomes: seq<Attempt>, hasClient: bool, connected: Option<bool>,
      later: Instant, port2: Option<seq<string>>, parse2: string -> Option<Json>,
      outcomes2: seq<Attempt>, connected2: Option<bool>)
    requires |outcomes| == MaxAttempts && |outcomes2| == MaxAttempts
    requires IntendedCycle(schedule, now, days, port, parse, outcomes, hasClient, connected).result.Given?
    requires later.date == now.date
    requires FirstDue(later, schedule) == FirstDue(now, schedule)
    ensures var first := IntendedCycle(schedule, now, days, port, parse, outcomes, hasClient, connected);
      var second := IntendedCycle(schedule, later, first.days, port2, parse2, outcomes2, hasClient, connected2);
      !second.result.Given? && second.days == first.days && second.effects == []
  {
    SecondCheckShortCircuits(schedule, now, now.date, days, port, parse, outcomes, hasClient, connected,
                             later, later.date, port2, parse2, outcomes2, connected2);
  }

  /** Without a broker client a recognition still ends the process (the subscribe
      call fails) before the ledger is written, so nothing is ever recorded. */
  lemma {:induction false} NoClientNeverRecords(schedule: seq<Entry>, now: Instant, checkDate: Date, days: Days,
                             port: Option<seq<string>>, parse: string -> Option<Json>,
                             outcomes: seq<Attempt>, connected: Option<bool>)
    requires |outcomes| == MaxAttempts
    ensures var s := Cycle(schedule, now, checkDate, days, port, parse, outcomes, false, connected);
      s.days == days && !s.result.Given?
    ensures var s := Cycle(schedule, now, checkDate, days, port, parse, outcomes, false, connected);
      PublishSkipped in s.effects <==> s.result == Aborted(NoClient)
  {
    match FirstDue(now, schedule)
    case Due(p, t, d) =>
      if p != "" && !Dispensed(days, checkDate, p, t) {
        match SensorResultOf(port, parse) {
          case NotAnObject(_) =>
          case Reading(tm, hm) =>
            var step := Concluding(p, t, d, days, WithFallback(tm, hm), Confirm(p, outcomes, 0), false, connected);
            ConcludingWithoutClient(p, t, d, days, WithFallback(tm, hm), Confirm(p, outcomes, 0), connected);
            assert PublishSkipped in [Alert] + step.effects <==> PublishSkipped in step.effects;
        }
      }
    case NotDue =>
    case BadTime(_) =>
  }

  /** The end of the cycle without a client: nothing is recorded, and a skipped
      publish is seen exactly when the subscribe call then fails. */
  lemma ConcludingWithoutClient(p: string, t: string, d: Date, days: Days, readings: (Json, Json),
                                outcome: Outcome, connected: Option<bool>)
    ensures var s := Concluding(p, t, d, days, readings, outcome, false, connected);
      s.days == days && !s.result.Given?
    ensures var s := Concluding(p, t, d, days, readings, outcome, false, connected);
      PublishSkipped in s.effects <==> s.result == Aborted(NoClient)
  {
  }

  /** A missing sensor never blocks a dispense: with no serial port, a due slot not
      yet given and a recognition, the cycle gives the slot and publishes 25.0 for
      both readings. */
  lemma {:induction false} SensorFailureDoesNotBlock(schedule: seq<Entry>, now: Instant, checkDate: Date, days: Days,
                                  parse: string -> Option<Json>, outcomes: seq<Attempt>,
                                  p: string, t: string, d: Date, name: string, n: nat)
    requires |outcomes| == MaxAttempts
    requires FirstDue(now, schedule) == Due(p, t, d) && p != "" && !Dispensed(days, checkDate, p, t)
    requires Confirm(p, outcomes, 0) == Recognized(name, n)
    ensures Cycle(schedule, now, checkDate, days, None, parse, outcomes, true, Some(true))
      == Step(Given(p, t, n), Added(days, d, p, t),
              [Alert, Published(Telemetry(p, JNumber(25.0), JNumber(25.0))), Subscribed("sensors")])
  {
    ConfirmSpec(p, outcomes, 0);
  }

  /** A missed recognition (all five attempts failed) alerts once and records nothing. */
  lemma ExhaustionRecordsNothing(schedule: seq<Entry>, now: Instant, checkDate: Date, days: Days,
                                 port: Option<seq<string>>, parse: string -> Option<Json>,
                                 outcomes: seq<Attempt>, hasClient: bool, connected: Option<bool>)
    requires |outcomes| == MaxAttempts
    requires FirstDue(now, schedule).Due? && FirstDue(now, schedule).person != ""
    requires !Dispensed(days, checkDate, FirstDue(now, schedule).person, FirstDue(now, schedule).time)
    requires SensorResultOf(port, parse).Reading?
    requires forall j :: 0 <= j < MaxAttempts ==> Judge(FirstDue(now, schedule).person, outcomes[j]) == Miss
    ensures Cycle(schedule, now, checkDate, days, port, parse, outcomes, hasClient, connected)
      == Step(NotRecognized(FirstDue(now, schedule).person, FirstDue(now, schedule).time), days, [Alert])
  {
    ConfirmSpec(FirstDue(now, schedule).person, outcomes, 0);
  }

  /** Alice is due at 08:00; at 08:00:30 with an empty ledger and a 0.95 "alice"
      classification on the first attempt she is given her dose, one record is
      made and one publish submitted; with a 0.9 "bob" on all five attempts
      nothing is recorded. */
  lemma {:induction false} AliceScenario(d: Date, parse: string -> Option<Json>)
    ensures var now := Instant(d, (8 * 3600 + 30) * MicrosPerSecond);
      var alice := Scores([("alice", 0.95)]);
      Cycle([Entry("alice", "08:00")], now, d, map[], None, parse,
            [alice, NoFrame, NoFrame, NoFrame, NoFrame], true, Some(true))
      == Step(Given("alice", "08:00", 1), map[d := [Record("alice", "08:00")]],
              [Alert, Published(Telemetry("alice", JNumber(25.0), JNumber(25.0))), Subscribed("sensors")])
    ensures var now := Instant(d, (8 * 3600 + 30) * MicrosPerSecond);
      var bob := Scores([("bob", 0.9)]);
      Cycle([Entry("alice", "08:00")], now, d, map[], None, parse,
            [bob, bob, bob, bob, bob], true, Some(true))
      == Step(NotRecognized("alice", "08:00"), map[], [Alert])
  {
    AliceGiven(d, parse);
    BobNotRecognized(d, parse);
  }

  lemma AliceGiven(d: Date, parse: string -> Option<Json>)
    ensures var now := Instant(d, (8 * 3600 + 30) * MicrosPerSecond);
      Cycle([Entry("alice", "08:00")], now, d, map[], None, parse,
            [Scores([("alice", 0.95)]), NoFrame, NoFrame, NoFrame, NoFrame], true, Some(true))
      == Step(Given("alice", "08:00", 1), map[d := [Record("alice", "08:00")]],
              [Alert, Published(Telemetry("alice", JNumber(25.0), JNumber(25.0))), Subscribed("sensors")])
  {
    var now := Instant(d, (8 * 3600 + 30) * MicrosPerSecond);
    MorningSlotDue(d);
    Scenarios();
    var empty: Days := map[];
    AddedIsFound(empty, d, "alice", "08:00");
    SensorFailureDoesNotBlock([Entry("alice", "08:00")], now, d, empty, parse,
                              [Scores([("alice", 0.95)]), NoFrame, NoFrame, NoFrame, NoFrame],
                              "alice", "08:00", d, "alice", 1);
    assert RecordsOn(empty, d) + [Record("alice", "08:00")] == [Record("alice", "08:00")];
    assert empty[d := [Record("alice", "08:00")]] == map[d := [Record("alice", "08:00")]];
  }

  lemma BobNotRecognized(d: Date, parse: string -> Option<Json>)
    ensures var now := Instant(d, (8 * 3600 + 30) * MicrosPerSecond);
      var bob := Scores([("bob", 0.9)]);
      Cycle([Entry("alice", "08:00")], now, d, map[], None, parse,
            [bob, bob, bob, bob, bob], true, Some(true))
      == Step(NotRecognized("alice", "08:00"), map[], [Alert])
  {
    var now := Instant(d, (8 * 3600 + 30) * MicrosPerSecond);
    var bob := Scores([("bob", 0.9)]);
    MorningSlotDue(d);
    var empty: Days := map[];
    AddedIsFound(empty, d, "alice", "08:00");
    assert bob.scores[ArgMax(bob.scores)] == ("bob", 0.9);
    assert Judge("alice", bob) == Miss;
    ExhaustionRecordsNothing([Entry("alice", "08:00")], now, d, empty, None, parse,
                             [bob, bob, bob, bob, bob], true, Some(true));
  }

  /** An "08:00" slot is due at 08:00:30. */
  lemma MorningSlotDue(d: Date)
    ensures FirstDue(Instant(d, (8 * 3600 + 30) * MicrosPerSecond), [Entry("alice", "08:00")])
      == Due("alice", "08:00", d)
  {
    SlotTimeOfFormat(8, 0);
    assert FormatHHMM(8, 0) == "08:00";
  }

  class Dispenser {
    const schedule: seq<Entry>
    const ledger: Ledger
    const motor: Motor
    /** Whether `setup_aws_iot` returned a client. */
    const hasClient: bool
    /** `mqtt_connected`, set by the broker's connect callback. */
    var connected: Option<bool>
    var effects: seq<Effect>

    constructor (schedule: seq<Entry>, hasClient: bool)
      ensures this.schedule == schedule && this.hasClient == hasClient && connected == None
      ensures fresh(ledger) && fresh(motor) && ledger.days == map[] && effects == []
      ensures motor.writes == [] && motor.Coils() == Phase(0, 0, 0, 0)
    {
      this.schedule := schedule;
      this.hasClient := hasClient;
      connected := None;
      ledger := new Ledger();
      motor := new Motor();
      effects := [];
    }

    /** `on_connect`: the broker's callback records whether the connection
        succeeded (result code 0). */
    method OnConnect(rc: int)
      modifies this`connected
      ensures connected == Some(rc == 0)
    {
      if rc == 0 {
        connected := Some(true);
      } else {
        connected := Some(false);
      }
    }

    /** `publish_to_aws`: submitted only with a connected client, otherwise skipped. */
    method PublishToAws(person: string, temperature: Json, humidity: Json)
      modifies this`effects
      ensures effects == old(effects) + [PublishEffect(hasClient, connected, Telemetry(person, temperature, humidity))]
    {
      if !hasClient || connected != Some(true) {
        effects := effects + [PublishSkipped];
        return;
      }
      effects := effects + [Published(Telemetry(person, temperature, humidity))];
    }

    /** `on_message`: the motor turns only on `{"action": "dispense"}`. */
    method OnMessage(payload: Option<Json>) returns (c: Command)
      modifies motor
      ensures c == CommandOf(payload)
      ensures c == DispenseCommand ==> motor.writes == old(motor.writes) + Run(StepsFor(DispenseAngle), DispenseDirection)
      ensures c == DispenseCommand ==> motor.Coils() == Phase(1, 0, 0, 1)
      ensures c != DispenseCommand ==> unchanged(motor)
    {
      c := CommandOf(payload);
      if c == DispenseCommand {
        StepsForExamples(DispenseAngle);
        var d := motor.StopAngle(DispenseAngle, DispenseDirection, DefaultRpm);
        LastPhase(85, DispenseDirection);
      }
    }

    /** One pass of `main`'s loop. The recognised branch publishes, subscribes and
        records, but does not turn the motor. */
    method RunCycle(now: Instant, checkDate: Date, port: Option<seq<string>>,
                    parse: string -> Option<Json>, outcomes: seq<Attempt>) returns (r: CycleResult)
      requires |outcomes| == MaxAttempts
      modifies this`effects, ledger
      ensures var s := Cycle(schedule, now, checkDate, old(ledger.days), port, parse, outcomes, hasClient, connected);
        r == s.result && ledger.days == s.days && effects == old(effects) + s.effects
      ensures motor.writes == old(motor.writes)
    {
      var due := CheckMedicationTime(now, schedule);
      if due.BadTime? {
        return Aborted(BadScheduleTime(due.time));
      }
      if due.NotDue? || due.person == "" {
        return NothingDue;
      }
      var alreadyDispensed := Occurs(RecordsOn(ledger.days, checkDate), due.person, due.time);
      if alreadyDispensed {
        return AlreadyGiven(due.person, due.time);
      }
      r := Attend(due.person, due.time, due.date, port, parse, outcomes);
    }

    /** The cycle's alert, sensing and recognition once a slot is due and not given. */
    method Attend(p: string, t: string, d: Date, port: Option<seq<string>>,
                  parse: string -> Option<Json>, outcomes: seq<Attempt>) returns (r: CycleResult)
      requires |outcomes| == MaxAttempts
      modifies this`effects, ledger
      ensures var s := Attending(p, t, d, old(ledger.days), port, parse, outcomes, hasClient, connected);
        r == s.result && ledger.days == s.days && effects == old(effects) + s.effects
    {
      ghost var days0 := ledger.days;
      effects := effects + [Alert];
      var reading := ReadSensorData(port, parse);
      assert reading == SensorResultOf(port, parse);
      if reading.NotAnObject? {
        assert Attending(p, t, d, days0, port, parse, outcomes, hasClient, connected)
          == Step(Aborted(SensorNotObject(reading.line)), days0, [Alert]);
        return Aborted(SensorNotObject(reading.line));
      }
      var temperature, humidity := reading.temperature, reading.humidity;
      if temperature.None? || humidity.None? {
        temperature, humidity := Some(FallbackReading), Some(FallbackReading);
      }
      assert (temperature.value, humidity.value) == WithFallback(reading.temperature, reading.humidity);
      var outcome := RecognitionLoop(p, outcomes);
      ghost var alerted := effects;
      assert alerted == old(effects) + [Alert];
      r := Conclude(p, t, d, (temperature.value, humidity.value), outcome);
      ghost var step := Concluding(p, t, d, days0, (temperature.value, humidity.value), outcome, hasClient, connected);
      assert Attending(p, t, d, days0, port, parse, outcomes, hasClient, connected)
        == Step(step.result, step.days, [Alert] + step.effects);
      assert effects == alerted + step.effects;
      assert alerted + step.effects == old(effects) + ([Alert] + step.effects);
    }

    /** The end of the cycle after the recognition loop. */
    method Conclude(p: string, t: string, d: Date, readings: (Json, Json), outcome: Outcome)
      returns (r: CycleResult)
      modifies this`effects, ledger
      ensures var s := Concluding(p, t, d, old(ledger.days), readings, outcome, hasClient, connected);
        r == s.result && ledger.days == s.days && effects == old(effects) + s.effects
    {
      match outcome {
        case Exhausted =>
          r := NotRecognized(p, t);
        case Crashed(_, cause) =>
          r := Aborted(CrashError(cause));
        case Recognized(name, n) =>
          PublishToAws(name, readings.0, readings.1);
          if !hasClient {
            return Aborted(NoClient);
          }
          effects := effects + [Subscribed(SubscribeTopic)];
          ledger.AddDispenseRecord(d, p, t);
          r := Given(p, t, n);
      }
    }
  }
}

=== FILE: ledger.dfy ===
/** The dispense ledger (`dispensed_today` in dispensing.py): for each date, the
    (person, time) slots dispensed on it, in the order they were recorded. It only
    grows; it lives in process memory. */
module DispenseLedger {
  import opened Schedule

  datatype Record = Record(person: string, time: string)

  type Days = map<Date, seq<Record>>

  /** `dispensed_today.get(date, [])` */
  function RecordsOn(days: Days, date: Date): seq<Record>
  {
    if date in days then days[date] else []
  }

  /** The generator scan `any(person == p and time == t for person, time in records)`. */
  function Occurs(records: seq<Record>, person: string, time: string): (b: bool)
    ensures b <==> Record(person, time) in records
  {
    if records == [] then false
    else (records[0].person == person && records[0].time == time) || Occurs(records[1..], person, time)
  }

  /** The already-dispensed check of the orchestrator cycle, for one date. */
  predicate Dispensed(days: Days, date: Date, person: string, time: string)
  {
    Occurs(RecordsOn(days, date), person, time)
  }

  /** The ledger after `add_dispense_record(date, person, time)`. */
  function Added(days: Days, date: Date, person: string, time: string): Days
  {
    days[date := RecordsOn(days, date) + [Record(person, time)]]
  }

  class Ledger {
    var days: Days

    constructor ()
      ensures days == map[]
    {
      days := map[];
    }

    /** Creates the date's list when absent, then appends the slot. */
    method AddDispenseRecord(date: Date, person: string, time: string)
      modifies this
      ensures days == Added(old(days), date, person, time)
    {
      if date !in days {
        days := days[date := []];
      }
      days := days[date := days[date] + [Record(person, time)]];
    }
  }

  /** Recording a slot makes the already-dispensed check true for exactly that slot
      on that date; a date with no list answers false. */
  lemma AddedIsFound(days: Days, date: Date, person: string, time: string)
    ensures Dispensed(Added(days, date, person, time), date, person, time)
    ensures date !in days ==> forall p, t :: !Dispensed(days, date, p, t)
  {
    assert RecordsOn(Added(days, date, person, time), date)[|RecordsOn(days, date)|] == Record(person, time);
  }

  /** Append-only: other dates are untouched, the date's earlier records stay in
      place, its list grows by exactly one (duplicates are kept), and every slot
      found before is still found. */
  lemma {:induction false} AddedOnlyGrows(days: Days, date: Date, person: string, time: string)
    ensures Added(days, date, person, time).Keys == days.Keys + {date}
    ensures forall d :: d in days && d != date ==> Added(days, date, person, time)[d] == days[d]
    ensures RecordsOn(Added(days, date, person, time), date) == RecordsOn(days, date) + [Record(person, time)]
    ensures |RecordsOn(Added(days, date, person, time), date)| == |RecordsOn(days, date)| + 1
    ensures forall d, p, t :: Dispensed(days, d, p, t) ==> Dispensed(Added(days, date, person, time), d, p, t)
  {
    var after := Added(days, date, person, time);
    forall d, p, t | Dispensed(days, d, p, t) ensures Dispensed(after, d, p, t) {
      var i :| 0 <= i < |RecordsOn(days, d)| && RecordsOn(days, d)[i] == Record(p, t);
      assert RecordsOn(after, d)[i] == Record(p, t);
    }
  }
}

=== FILE: recognition.dfy ===
/** The identity-confirmation loop of the orchestrator cycle (dispensing.py,
    `main`): up to five capture-and-classify attempts, each judged against the
    person who is due. Camera and classifier are abstracted as the outcome each
    attempt sees. */
module Recognition {

  const MaxAttempts: nat := 5
  /** The confidence a top name needs to count as a recognition. */
  const Threshold: real := 0.8

  /** What one attempt yields: the capture command failing (`subprocess.run` with
      `check=True` raises), no frame from `cv2.imread`, classifier output of the
      wrong shape, or the classification scores in the dictionary's order. */
  datatype Attempt = CaptureFailed | NoFrame | Malformed | Scores(scores: seq<(string, real)>)

  /** The exceptions an attempt can raise, which `main` does not catch: the
      capture command's, and `max`'s ValueError on an empty score dictionary. */
  datatype Crash = CaptureError | EmptyScores

  /** `max(scores, key=scores.get)`: the index of a largest score, the first one
      in iteration order on ties. */
  function ArgMax(scores: seq<(string, real)>): (k: nat)
    requires |scores| > 0
    ensures k < |scores|
    ensures forall j :: 0 <= j < |scores| ==> scores[j].1 <= scores[k].1
    ensures forall j :: 0 <= j < k ==> scores[j].1 < scores[k].1
  {
    if |scores| == 1 then 0
    else
      var k := ArgMax(scores[..|scores| - 1]);
      if scores[|scores| - 1].1 > scores[k].1 then |scores| - 1 else k
  }

  /** The three-way decision on the top name. */
  datatype Verdict = Confirmed | WrongPerson | LowConfidence

  function Decide(name: string, confidence: real, due: string): Verdict
  {
    if confidence >= Threshold && name == due then Confirmed
    else if confidence >= Threshold then WrongPerson
    else LowConfidence
  }

  /** One attempt, judged: it fails (and the loop goes on), it recognises `name`,
      or it raises. */
  datatype Judgement = Miss | Hit(name: string) | Raises(cause: Crash)

  function Judge(due: string, a: Attempt): Judgement
  {
    match a
    case CaptureFailed => Raises(CaptureError)
    case NoFrame => Miss
    case Malformed => Miss
    case Scores(s) =>
      if |s| == 0 then Raises(EmptyScores)
      else
        var k := ArgMax(s);
        if Decide(s[k].0, s[k].1, due) == Confirmed then Hit(s[k].0) else Miss
  }

  /** The loop's end: recognised on attempt `attempts`, all attempts used up, or
      aborted by an exception on attempt `attempts`. */
  datatype Outcome = Recognized(name: string, attempts: nat) | Exhausted | Crashed(attempts: nat, cause: Crash)

  /** The loop from attempt i + 1 on, as a recursive definition. */
  function Confirm(due: string, outcomes: seq<Attempt>, i: nat): Outcome
    requires |outcomes| == MaxAttempts && i <= MaxAttempts
    decreases MaxAttempts - i
  {
    if i == MaxAttempts then Exhausted
    else match Judge(due, outcomes[i])
      case Miss => Confirm(due, outcomes, i + 1)
      case Hit(name) => Recognized(name, i + 1)
      case Raises(c) => Crashed(i + 1, c)
  }

  /** `while not recognized and attempt < max_attempts`: the attempt counter goes
      up at the top of every iteration, so a missing frame, which `continue`s,
      still uses up an attempt. */
  method RecognitionLoop(due: string, outcomes: seq<Attempt>) returns (r: Outcome)
    requires |outcomes| == MaxAttempts
    ensures r == Confirm(due, outcomes, 0)
  {
    var attempt := 0;
    var recognized := false;
    r := Exhausted;
    while !recognized && attempt < MaxAttempts
      invariant 0 <= attempt <= MaxAttempts
      invariant recognized ==> r == Confirm(due, outcomes, 0) && r.Recognized?
      invariant !recognized ==> Confirm(due, outcomes, 0) == Confirm(due, outcomes, attempt)
      invariant !recognized ==> r == Exhausted
    {
      attempt := attempt + 1;
      var outcome := outcomes[attempt - 1];
      if outcome.CaptureFailed? {
        return Crashed(attempt, CaptureError);
      }
      if outcome.NoFrame? {
        continue;
      }
      if outcome.Scores? {
        var scores := outcome.scores;
        if |scores| == 0 {
          return Crashed(attempt, EmptyScores);
        }
        var k := ArgMax(scores);
        var name, confidence := scores[k].0, scores[k].1;
        if confidence >= Threshold && name == due {
          recognized := true;
          r := Recognized(name, attempt);
        } else if confidence >= Threshold && name != due {
          // wrong person: the attempt fails
        } else {
          // low confidence: the attempt fails
        }
      }
    }
  }

  /** The loop uses at most five attempts and stops right after the first that is
      not a miss: a recognition is of the due person, with a top score of at
      least 0.8 that no other name beats, after only misses; exhaustion means all
      five attempts missed, whatever each failure was. */
  lemma {:induction false} ConfirmSpec(due: string, outcomes: seq<Attempt>, i: nat)
    requires |outcomes| == MaxAttempts && i <= MaxAttempts
    ensures Confirm(due, outcomes, i).Recognized? ==>
      var n := Confirm(due, outcomes, i).attempts;
      i < n <= MaxAttempts
      && Confirm(due, outcomes, i).name == due
      && Judge(due, outcomes[n - 1]) == Hit(due)
      && (forall j :: i <= j < n - 1 ==> Judge(due, outcomes[j]) == Miss)
    ensures Confirm(due, outcomes, i).Crashed? ==>
      var n := Confirm(due, outcomes, i).attempts;
      i < n <= MaxAttempts
      && Judge(due, outcomes[n - 1]) == Raises(Confirm(due, outcomes, i).cause)
      && (forall j :: i <= j < n - 1 ==> Judge(due, outcomes[j]) == Miss)
    ensures Confirm(due, outcomes, i).Exhausted? <==>
      forall j :: i <= j < MaxAttempts ==> Judge(due, outcomes[j]) == Miss
    decreases MaxAttempts - i
  {
    if i < MaxAttempts {
      ConfirmSpec(due, outcomes, i + 1);
      match Judge(due, outcomes[i]) {
        case Miss =>
          assert Confirm(due, outcomes, i) == Confirm(due, outcomes, i + 1);
        case Hit(name) =>
          HitMeans(due, outcomes[i], name);
          assert Confirm(due, outcomes, i) == Recognized(due, i + 1);
        case Raises(c) =>
          assert Confirm(due, outcomes, i) == Crashed(i + 1, c);
      }
    }
  }

  /** What a hit means on the classifier's scores: the attempt's top name, first
      among equals, is the due person with confidence at least 0.8. */
  lemma HitMeans(due: string, a: Attempt, name: string)
    requires Judge(due, a) == Hit(name)
    ensures name == due && a.Scores? && |a.scores| > 0
    ensures a.scores[ArgMax(a.scores)] == (due, a.scores[ArgMax(a.scores)].1)
    ensures a.scores[ArgMax(a.scores)].1 >= Threshold
    ensures forall j :: 0 <= j < |a.scores| ==> a.scores[j].1 <= a.scores[ArgMax(a.scores)].1
  {
  }

  /** Five missing frames use up the loop without a recognition, while a failing
      capture command ends it on the spot, whatever the later attempts would see. */
  lemma CameraFailuresExhaust(due: string, outcomes: seq<Attempt>)
    requires |outcomes| == MaxAttempts
    ensures Confirm(due, [NoFrame, NoFrame, NoFrame, NoFrame, NoFrame], 0) == Exhausted
    ensures outcomes[0] == CaptureFailed ==> Confirm(due, outcomes, 0) == Crashed(1, CaptureError)
  {
    ConfirmSpec(due, [NoFrame, NoFrame, NoFrame, NoFrame, NoFrame], 0);
  }

  /** A confident classification of the due person on the first attempt is
      recognised at once; a confident classification of someone else on every
      attempt exhausts the loop. */
  lemma Scenarios()
    ensures Confirm("alice", [Scores([("alice", 0.95)]), NoFrame, NoFrame, NoFrame, NoFrame], 0)
      == Recognized("alice", 1)
    ensures var bob := Scores([("bob", 0.9)]);
      Confirm("alice", [bob, bob, bob, bob, bob], 0) == Exhausted
  {
    var bob := Scores([("bob", 0.9)]);
    assert Judge("alice", bob) == Miss;
    ConfirmSpec("alice", [bob, bob, bob, bob, bob], 0);
  }
}

=== FILE: schedule.dfy ===
/** The due-time evaluator: which scheduled person, if any, is due at a given
    wall-clock instant (`check_medication_time` in dispensing.py). */
module Schedule {
  import opened Basics

  const MicrosPerSecond: int := 1_000_000
  const MicrosPerDay: int := 86_400 * MicrosPerSecond
  /** A slot is due while |now - slot| is strictly under one minute. */
  const Tolerance: int := 60 * MicrosPerSecond

  /** A calendar date, as a day number; `strftime("%Y-%m-%d")` is one-to-one on dates. */
  type Date = int
  /** Microseconds since midnight, the resolution of Python's `datetime`. */
  type TimeOfDay = m: int | 0 <= m < MicrosPerDay

  datatype Instant = Instant(date: Date, micros: TimeOfDay)

  /** One schedule entry, `person: "HH:MM"`, in the table's insertion order. */
  datatype Entry = Entry(person: string, time: string)

  /** What `check_medication_time` yields: nobody due, the first due entry with
      the date of `now`, or the ValueError raised by a time that does not parse. */
  datatype Lookup = NotDue | Due(person: string, time: string, date: Date) | BadTime(time: string)

  predicate IsDigit(c: char) { '0' <= c <= '9' }

  predicate AllDigits(s: string) { forall i :: 0 <= i < |s| ==> IsDigit(s[i]) }

  function DigitsValue(s: string): nat
    requires AllDigits(s)
  {
    if s == [] then 0 else DigitsValue(s[..|s| - 1]) * 10 + (s[|s| - 1] as int - '0' as int)
  }

  /** `int(part)` on an ASCII digit string; anything else raises. */
  function ParseInt(s: string): Option<nat>
  {
    if s != [] && AllDigits(s) then Some(DigitsValue(s)) else None
  }

  function ColonIndex(s: string): (r: Option<nat>)
    ensures r.None? ==> ':' !in s
    ensures r.Some? ==> r.value < |s| && s[r.value] == ':' && ':' !in s[..r.value]
  {
    if s == [] then None
    else if s[0] == ':' then Some(0)
    else match ColonIndex(s[1..])
      case None => None
      case Some(k) => assert s[1..][..k] == s[1..k + 1]; Some(k + 1)
  }

  /** `med_hour, med_minute = map(int, t.split(":"))`: exactly two parts, each an integer. */
  function SplitHourMinute(t: string): Option<(nat, nat)>
  {
    match ColonIndex(t)
    case None => None
    case Some(k) =>
      if ':' in t[k + 1..] then None
      else match (ParseInt(t[..k]), ParseInt(t[k + 1..]))
        case (Some(h), Some(m)) => Some((h, m))
        case _ => None
  }

  /** The time of day of `now.replace(hour=h, minute=m, second=0, microsecond=0)`;
      None where parsing or `replace` raises ValueError. */
  function SlotTime(t: string): Option<TimeOfDay>
  {
    match SplitHourMinute(t)
    case None => None
    case Some((h, m)) =>
      if h < 24 && m < 60 then Some((h * 3600 + m * 60) * MicrosPerSecond) else None
  }

  /** |now - slot today| < 60 s: the window is open and 120 s wide, due exactly when
      the slot lies strictly less than 60 s before or after now. Both instants lie
      on now's date, so the window never reaches into the previous or the next day. */
  predicate WithinWindow(now: Instant, slot: TimeOfDay)
  {
    -Tolerance < now.micros - slot < Tolerance
  }

  /** Entry `e` is due at `now`. */
  predicate Hits(now: Instant, e: Entry)
  {
    SlotTime(e.time).Some? && WithinWindow(now, SlotTime(e.time).value)
  }

  /** The scan moves past entry `e`: its time parses and is not due. */
  predicate PassesOver(now: Instant, e: Entry)
  {
    SlotTime(e.time).Some? && !WithinWindow(now, SlotTime(e.time).value)
  }

  /** Entry k is the first one the scan stops at, because it is due. */
  predicate FirstHit(now: Instant, schedule: seq<Entry>, k: int)
  {
    0 <= k < |schedule| && Hits(now, schedule[k])
    && forall j :: 0 <= j < k ==> PassesOver(now, schedule[j])
  }

  /** Entry k is the first one the scan stops at, because its time does not parse. */
  predicate FirstBad(now: Instant, schedule: seq<Entry>, k: int)
  {
    0 <= k < |schedule| && SlotTime(schedule[k].time).None?
    && forall j :: 0 <= j < k ==> PassesOver(now, schedule[j])
  }

  /** The first-match scan, as a recursive definition. */
  function FirstDue(now: Instant, schedule: seq<Entry>): Lookup
  {
    if schedule == [] then NotDue
    else match SlotTime(schedule[0].time)
      case None => BadTime(schedule[0].time)
      case Some(slot) =>
        if WithinWindow(now, slot) then Due(schedule[0].person, schedule[0].time, now.date)
        else FirstDue(now, schedule[1..])
  }

  /** The scan of `check_medication_time`: entries in insertion order, stopping
      at the first due entry or at the first time that does not parse. */
  method CheckMedicationTime(now: Instant, schedule: seq<Entry>) returns (r: Lookup)
    ensures r == FirstDue(now, schedule)
  {
    var i := 0;
    while i < |schedule|
      invariant 0 <= i <= |schedule|
      invariant FirstDue(now, schedule) == FirstDue(now, schedule[i..])
    {
      assert schedule[i..][1..] == schedule[i + 1..];
      var slot := SlotTime(schedule[i].time);
      if slot.None? {
        return BadTime(schedule[i].time);
      }
      if WithinWindow(now, slot.value) {
        return Due(schedule[i].person, schedule[i].time, now.date);
      }
      i := i + 1;
    }
    return NotDue;
  }

  /** The scan's result, entry by entry: nobody is due exactly when every entry
      parses and none is within the window; a person is due exactly when some
      entry is the first to hit, and then it is that entry, on now's date; a time
      that does not parse before any hit aborts the scan. */
  lemma {:induction false} FirstDueCharacterization(now: Instant, schedule: seq<Entry>)
    ensures FirstDue(now, schedule).NotDue? <==> forall j :: 0 <= j < |schedule| ==> PassesOver(now, schedule[j])
    ensures FirstDue(now, schedule).Due? <==> exists k :: FirstHit(now, schedule, k)
    ensures forall k :: FirstHit(now, schedule, k) ==>
      FirstDue(now, schedule) == Due(schedule[k].person, schedule[k].time, now.date)
    ensures forall k :: FirstBad(now, schedule, k) ==> FirstDue(now, schedule) == BadTime(schedule[k].time)
  {
    if schedule != [] {
      var tail := schedule[1..];
      FirstDueCharacterization(now, tail);
      if PassesOver(now, schedule[0]) {
        forall k | FirstHit(now, schedule, k) ensures k >= 1 && FirstHit(now, tail, k - 1) {
          assert k != 0;
        }
        forall k | FirstBad(now, schedule, k) ensures k >= 1 && FirstBad(now, tail, k - 1) {
          assert k != 0;
        }
        if exists k :: FirstHit(now, tail, k) {
          var k :| FirstHit(now, tail, k);
          assert FirstHit(now, schedule, k + 1);
        }
        if forall j :: 0 <= j < |tail| ==> PassesOver(now, tail[j]) {
          forall j | 0 <= j < |schedule| ensures PassesOver(now, schedule[j]) {
            if j > 0 { assert schedule[j] == tail[j - 1]; }
          }
        }
      } else if Hits(now, schedule[0]) {
        assert FirstHit(now, schedule, 0);
        forall k | FirstHit(now, schedule, k) ensures k == 0 {
        }
        forall k | FirstBad(now, schedule, k) ensures false {
        }
      } else {
        assert FirstBad(now, schedule, 0);
        forall k | FirstHit(now, schedule, k) ensures false {
        }
        forall k | FirstBad(now, schedule, k) ensures k == 0 {
        }
      }
    }
  }

  function DigitChar(d: nat): char
    requires d < 10
  {
    ('0' as int + d) as char
  }

  /** The "HH:MM" text of a time of day, with two-digit hour and minute. */
  function FormatHHMM(h: nat, m: nat): (t: string)
    requires h < 24 && m < 60
  {
    [DigitChar(h / 10), DigitChar(h % 10), ':', DigitChar(m / 10), DigitChar(m % 10)]
  }

  lemma TwoDigitsValue(a: nat, b: nat)
    requires a < 10 && b < 10
    ensures AllDigits([DigitChar(a), DigitChar(b)])
    ensures DigitsValue([DigitChar(a), DigitChar(b)]) == 10 * a + b
  {
    var s := [DigitChar(a), DigitChar(b)];
    assert DigitChar(a) as int - '0' as int == a;
    assert DigitChar(b) as int - '0' as int == b;
    assert s[..1] == [DigitChar(a)];
    assert s[..1][..0] == [];
    assert DigitsValue(s[..1]) == a;
    assert DigitsValue(s) == DigitsValue(s[..1]) * 10 + b;
  }

  /** Every well-formed "HH:MM" entry parses back to its hour and minute. */
  lemma {:induction false} SlotTimeOfFormat(h: nat, m: nat)
    requires h < 24 && m < 60
    ensures SlotTime(FormatHHMM(h, m)) == Some((h * 3600 + m * 60) * MicrosPerSecond)
  {
    var t := FormatHHMM(h, m);
    assert t[0] != ':' && t[1] != ':';
    assert t[1..][1..][0] == ':';
    assert ColonIndex(t[1..][1..]) == Some(0);
    assert ColonIndex(t[1..]) == Some(1);
    assert ColonIndex(t) == Some(2);
    assert t[..2] == [DigitChar(h / 10), DigitChar(h % 10)];
    assert t[3..] == [DigitChar(m / 10), DigitChar(m % 10)];
    TwoDigitsValue(h / 10, h % 10);
    TwoDigitsValue(m / 10, m % 10);
    assert ':' !in t[3..];
  }

  /** A 00:00 slot is not due at 23:59:30 of the same day: the scheduled instant
      is built on now's own date, so the window does not wrap past midnight. */
  lemma NoMidnightWrap(d: Date, person: string)
    ensures FirstDue(Instant(d, (23 * 3600 + 59 * 60 + 30) * MicrosPerSecond), [Entry(person, "00:00")]) == NotDue
  {
    SlotTimeOfFormat(0, 0);
    assert FormatHHMM(0, 0) == "00:00";
  }
}

=== FILE: sensor.dfy ===
/** The telemetry source adapter (`read_sensor_data` in dispensing.py): the lines
    the serial port delivers within its five-second wait, filtered for the first
    one that decodes as JSON. */
module Sensor {
  import opened Basics

  /** The ASCII characters that `str.strip()` removes: space, tab, line feed,
      vertical tab, form feed, carriage return, and the four separators 0x1C-0x1F. */
  predicate IsSpace(c: char)
  {
    c == ' ' || '\t' <= c <= '\r' || '\U{1C}' <= c <= '\U{1F}'
  }

  function TrimStart(s: string): (r: string)
    ensures |r| <= |s| && r == s[|s| - |r|..]
    ensures forall i :: 0 <= i < |s| - |r| ==> IsSpace(s[i])
    ensures r != [] ==> !IsSpace(r[0])
  {
    if s != [] && IsSpace(s[0]) then TrimStart(s[1..]) else s
  }

  function TrimEnd(s: string): (r: string)
    ensures |r| <= |s| && r == s[..|r|]
    ensures forall i :: |r| <= i < |s| ==> IsSpace(s[i])
    ensures r != [] ==> !IsSpace(r[|r| - 1])
  {
    if s != [] && IsSpace(s[|s| - 1]) then TrimEnd(s[..|s| - 1]) else s
  }

  /** `line.strip()` */
  function Strip(s: string): string
  {
    TrimEnd(TrimStart(s))
  }

  /** A stripped line is empty exactly when the raw line is all whitespace, and a
      non-empty one neither starts nor ends with whitespace. */
  lemma StripBlank(s: string)
    ensures Strip(s) == [] <==> forall i :: 0 <= i < |s| ==> IsSpace(s[i])
    ensures Strip(s) != [] ==> !IsSpace(Strip(s)[0]) && !IsSpace(Strip(s)[|Strip(s)| - 1])
  {
    var t := TrimStart(s);
    TrimStartBlank(s);
    TrimEndBlank(t);
    if Strip(s) != [] {
      assert Strip(s)[0] == t[0];
    }
  }

  lemma {:induction false} TrimStartBlank(s: string)
    ensures TrimStart(s) == [] <==> forall i :: 0 <= i < |s| ==> IsSpace(s[i])
  {
    if s != [] && IsSpace(s[0]) {
      TrimStartBlank(s[1..]);
      assert forall i :: 0 <= i < |s| - 1 ==> s[1..][i] == s[i + 1];
    }
  }

  lemma {:induction false} TrimEndBlank(s: string)
    ensures TrimEnd(s) == [] <==> forall i :: 0 <= i < |s| ==> IsSpace(s[i])
  {
    if s != [] && IsSpace(s[|s| - 1]) {
      TrimEndBlank(s[..|s| - 1]);
      assert forall i :: 0 <= i < |s| - 1 ==> s[..|s| - 1][i] == s[i];
    }
  }

  /** What `read_sensor_data` returns: the two fields of the first decoded line
      (each None when absent or null), or the AttributeError raised when that line
      decodes to a JSON value that is not an object. */
  datatype SensorResult =
    | Reading(temperature: Option<Json>, humidity: Option<Json>)
    | NotAnObject(line: string)

  /** A line the adapter accepts: non-blank after stripping, and decodable. */
  predicate WellFormed(line: string, parse: string -> Option<Json>)
  {
    Strip(line) != [] && parse(Strip(line)).Some?
  }

  /** Line k is the first line the adapter accepts. */
  predicate FirstWellFormed(lines: seq<string>, parse: string -> Option<Json>, k: int)
  {
    0 <= k < |lines| && WellFormed(lines[k], parse)
    && forall j :: 0 <= j < k ==> !WellFormed(lines[j], parse)
  }

  /** The reading taken from a decoded value. */
  function FieldsOf(v: Json, line: string): SensorResult
  {
    match v
    case JObject(f) => Reading(Get(f, "temperature"), Get(f, "humidity"))
    case _ => NotAnObject(line)
  }

  /** The polling loop over the available lines, as a recursive definition. */
  function FirstReading(lines: seq<string>, parse: string -> Option<Json>): SensorResult
  {
    if lines == [] then Reading(None, None)
    else
      var line := Strip(lines[0]);
      if line == [] then FirstReading(lines[1..], parse)
      else match parse(line)
        case None => FirstReading(lines[1..], parse)
        case Some(v) => FieldsOf(v, line)
  }

  /** With no well-formed line, the adapter reports (None, None). */
  lemma {:induction false} NoLineNoReading(lines: seq<string>, parse: string -> Option<Json>)
    ensures (forall j :: 0 <= j < |lines| ==> !WellFormed(lines[j], parse)) ==>
      FirstReading(lines, parse) == Reading(None, None)
  {
    if lines != [] {
      var tail := lines[1..];
      NoLineNoReading(tail, parse);
      if forall j :: 0 <= j < |lines| ==> !WellFormed(lines[j], parse) {
        forall j | 0 <= j < |tail| ensures !WellFormed(tail[j], parse) {
          assert tail[j] == lines[j + 1];
        }
      }
    }
  }

  /** Blank and undecodable lines are skipped, and the first well-formed line
      decides the result. */
  lemma {:induction false} FirstReadingSpec(lines: seq<string>, parse: string -> Option<Json>)
    ensures forall k :: FirstWellFormed(lines, parse, k) ==>
      FirstReading(lines, parse) == FieldsOf(parse(Strip(lines[k])).value, Strip(lines[k]))
  {
    if lines != [] {
      var tail := lines[1..];
      FirstReadingSpec(tail, parse);
      if !WellFormed(lines[0], parse) {
        forall k | FirstWellFormed(lines, parse, k)
          ensures FirstReading(lines, parse) == FieldsOf(parse(Strip(lines[k])).value, Strip(lines[k]))
        {
          assert k > 0 && lines[k] == tail[k - 1];
          forall j | 0 <= j < k - 1 ensures !WellFormed(tail[j], parse) {
            assert tail[j] == lines[j + 1];
          }
        }
      }
    }
  }

  /** A reading never carries JSON null: a null member reads as a missing one. */
  lemma {:induction false} NoNullReading(lines: seq<string>, parse: string -> Option<Json>)
    ensures FirstReading(lines, parse).Reading? ==>
      FirstReading(lines, parse).temperature != Some(JNull)
      && FirstReading(lines, parse).humidity != Some(JNull)
  {
    if lines != [] {
      NoNullReading(lines[1..], parse);
    }
  }

  /** `read_sensor_data(ser)`: no port gives (None, None); otherwise the lines are
      polled in arrival order until one decodes. */
  method ReadSensorData(port: Option<seq<string>>, parse: string -> Option<Json>) returns (r: SensorResult)
    ensures port.None? ==> r == Reading(None, None)
    ensures port.Some? ==> r == FirstReading(port.value, parse)
  {
    if port.None? {
      return Reading(None, None);
    }
    var lines := port.value;
    var i := 0;
    while i < |lines|
      invariant 0 <= i <= |lines|
      invariant FirstReading(lines, parse) == FirstReading(lines[i..], parse)
    {
      assert lines[i..][1..] == lines[i + 1..];
      var line := Strip(lines[i]);
      if line != [] {
        var data := parse(line);
        if data.Some? {
          return FieldsOf(data.value, line);
        }
      }
      i := i + 1;
    }
    return Reading(None, None);
  }
}

=== FILE: stepper.dfy ===
/** The stepper-motor driver (stepper.py, repeated in dispensing.py): an angle
    becomes a whole number of steps, and each step writes the four coil outputs
    IN1..IN4 once per phase of the four-phase table. */
module Stepper {
  import opened Basics

  type Bit = b: int | 0 <= b <= 1

  /** One write of the four coil outputs, `set_step(w1, w2, w3, w4)`. */
  datatype Phase = Phase(in1: Bit, in2: Bit, in3: Bit, in4: Bit)

  /** `step_sequence_fast`, the full-step table. */
  const StepSequenceFast: seq<Phase> :=
    [Phase(1, 1, 0, 0), Phase(0, 1, 1, 0), Phase(0, 0, 1, 1), Phase(1, 0, 0, 1)]

  /** Steps in one revolution of the output shaft. */
  const StepsPerRevolution: int := 510

  /** How many coils a phase energises. */
  function Energised(p: Phase): nat
  {
    p.in1 + p.in2 + p.in3 + p.in4
  }

  /** How many coils two phases both energise. */
  function SharedCoils(p: Phase, q: Phase): nat
  {
    p.in1 * q.in1 + p.in2 * q.in2 + p.in3 * q.in3 + p.in4 * q.in4
  }

  /** The phase that follows phase i of the table, wrapping from the last to the first. */
  function Following(i: nat): Phase
    requires i < 4
  {
    StepSequenceFast[(i + 1) % 4]
  }

  /** Every phase drives exactly two coils, and cyclically consecutive phases
      share exactly one, so each phase hands over half its coils to the next. */
  lemma PhaseTableShape()
    ensures |StepSequenceFast| == 4
    ensures forall i :: 0 <= i < 4 ==> Energised(StepSequenceFast[i]) == 2
    ensures forall i: nat :: i < 4 ==> SharedCoils(StepSequenceFast[i], Following(i)) == 1
  {
    assert Following(0) == StepSequenceFast[1];
    assert Following(1) == StepSequenceFast[2];
    assert Following(2) == StepSequenceFast[3];
    assert Following(3) == StepSequenceFast[0];
  }

  /** The phases of one step: the table, or `reversed(table)` when direction <= 0. */
  function StepPhases(direction: int): (s: seq<Phase>)
    ensures |s| == 4
    ensures forall i :: 0 <= i < 4 ==>
      s[i] == if direction > 0 then StepSequenceFast[i] else StepSequenceFast[3 - i]
  {
    if direction > 0 then StepSequenceFast
    else [StepSequenceFast[3], StepSequenceFast[2], StepSequenceFast[1], StepSequenceFast[0]]
  }

  /** The coil writes of `for _ in range(steps): for step in ...: set_step(*step)`. */
  function Run(steps: int, direction: int): seq<Phase>
    decreases steps
  {
    if steps <= 0 then [] else Run(steps - 1, direction) + StepPhases(direction)
  }

  lemma {:induction false} RunLength(steps: int, direction: int)
    ensures |Run(steps, direction)| == if steps > 0 then 4 * steps else 0
    decreases steps
  {
    if steps > 0 { RunLength(steps - 1, direction); }
  }

  /** `step_motor` writes 4 * steps phases; write k is table phase k mod 4 going
      forward and table phase 3 - (k mod 4) otherwise. */
  lemma {:induction false} RunAt(steps: int, direction: int, k: int)
    requires 0 <= k < |Run(steps, direction)|
    ensures steps > 0 && |Run(steps, direction)| == 4 * steps
    ensures Run(steps, direction)[k] ==
      if direction > 0 then StepSequenceFast[k % 4] else StepSequenceFast[3 - k % 4]
    decreases steps
  {
    RunLength(steps, direction);
    RunLength(steps - 1, direction);
    if k < 4 * (steps - 1) {
      RunAt(steps - 1, direction, k);
    } else {
      var r := k - 4 * (steps - 1);
      assert k == 4 * (steps - 1) + r && 0 <= r < 4;
      assert k % 4 == r;
    }
  }

  /** After a run of at least one step the coils hold the last phase written:
      [1,0,0,1] going forward, [1,1,0,0] in reverse. */
  lemma LastPhase(steps: int, direction: int)
    requires steps > 0
    ensures Run(steps, direction) != []
    ensures Run(steps, direction)[|Run(steps, direction)| - 1] == StepPhases(direction)[3]
    ensures StepPhases(direction)[3] == if direction > 0 then Phase(1, 0, 0, 1) else Phase(1, 1, 0, 0)
  {
  }

  /** `int(angle_deg / 360 * 510)`: the exact quotient truncated toward zero. */
  function StepsFor(angleDeg: real): int
  {
    var x := angleDeg * StepsPerRevolution as real / 360.0;
    if x >= 0.0 then x.Floor else -((-x).Floor)
  }

  /** 60 degrees are 85 steps, a full turn 510; and angles under 12/17 of a
      degree either way round to no step at all. */
  lemma StepsForExamples(angleDeg: real)
    ensures StepsFor(60.0) == 85 && StepsFor(360.0) == 510 && StepsFor(-60.0) == -85
    ensures StepsFor(angleDeg) == 0 <==> -12.0 / 17.0 < angleDeg < 12.0 / 17.0
  {
    var x := angleDeg * 510.0 / 360.0;
    if x >= 0.0 {
      assert StepsFor(angleDeg) == 0 <==> x < 1.0;
    } else {
      assert StepsFor(angleDeg) == 0 <==> -x < 1.0;
    }
  }

  /** How `step_motor` ends: all steps written, ZeroDivisionError from
      `60 / (rpm * steps)`, or the ValueError `sleep` raises for the negative
      delay of a negative rpm, right after the first coil write. */
  datatype Drive = Completed | ZeroDivision | NegativeSleep

  /** The four GPIO outputs IN1..IN4, with every write they have received. */
  class Motor {
    var in1: Bit
    var in2: Bit
    var in3: Bit
    var in4: Bit
    var writes: seq<Phase>

    function Coils(): Phase
      reads this
    {
      Phase(in1, in2, in3, in4)
    }

    /** The outputs start low. */
    constructor ()
      ensures Coils() == Phase(0, 0, 0, 0) && writes == []
    {
      in1, in2, in3, in4 := 0, 0, 0, 0;
      writes := [];
    }

    /** `set_step(w1, w2, w3, w4)` */
    method SetStep(p: Phase)
      modifies this
      ensures Coils() == p
      ensures writes == old(writes) + [p]
    {
      in1, in2, in3, in4 := p.in1, p.in2, p.in3, p.in4;
      writes := writes + [p];
    }

    /** `step_motor(steps, direction, rpm)`; `rpm` None keeps the fixed delay. */
    method StepMotor(steps: int, direction: int, rpm: Option<real>) returns (d: Drive)
      modifies this
      ensures d == ZeroDivision <==> rpm.Some? && rpm.value * steps as real == 0.0
      ensures d == NegativeSleep <==> rpm.Some? && rpm.value < 0.0 && steps > 0
      ensures d == Completed ==> writes == old(writes) + Run(steps, direction)
      ensures d == ZeroDivision ==> writes == old(writes) && Coils() == old(Coils())
      ensures d == NegativeSleep ==> writes == old(writes) + [StepPhases(direction)[0]]
      ensures d == NegativeSleep ==> Coils() == StepPhases(direction)[0]
      ensures d == Completed && steps > 0 ==> Coils() == StepPhases(direction)[3]
      ensures d == Completed && steps <= 0 ==> Coils() == old(Coils())
    {
      if rpm.Some? && rpm.value * steps as real == 0.0 {
        return ZeroDivision;
      }
      var negativeDelay := rpm.Some? && rpm.value * steps as real < 0.0;
      var phases := StepPhases(direction);
      var n := 0;
      while n < steps
        invariant steps > 0 ==> 0 <= n <= steps
        invariant steps <= 0 ==> n == 0
        invariant writes == old(writes) + Run(n, direction)
        invariant n > 0 ==> Coils() == phases[3] && !negativeDelay
        invariant n == 0 ==> Coils() == old(Coils())
      {
        var i := 0;
        while i < 4
          invariant 0 <= i <= 4
          invariant writes == old(writes) + Run(n, direction) + phases[..i]
          invariant i > 0 ==> Coils() == phases[i - 1] && !negativeDelay
          invariant i == 0 && n == 0 ==> Coils() == old(Coils())
          invariant i == 0 && n > 0 ==> Coils() == phases[3]
        {
          SetStep(phases[i]);
          if negativeDelay {
            assert n == 0 && i == 0;
            return NegativeSleep;
          }
          assert phases[..i + 1] == phases[..i] + [phases[i]];
          i := i + 1;
        }
        assert phases[..4] == phases;
        n := n + 1;
      }
      return Completed;
    }

    /** `stop_angle(angle_deg, direction, rpm)`: the angle's step count, driven. */
    method StopAngle(angleDeg: real, direction: int, rpm: real) returns (d: Drive)
      modifies this
      ensures d == ZeroDivision <==> rpm * StepsFor(angleDeg) as real == 0.0
      ensures d == NegativeSleep <==> rpm < 0.0 && StepsFor(angleDeg) > 0
      ensures d == Completed ==> writes == old(writes) + Run(StepsFor(angleDeg), direction)
      ensures d == ZeroDivision ==> writes == old(writes) && Coils() == old(Coils())
      ensures d == NegativeSleep ==> writes == old(writes) + [StepPhases(direction)[0]]
      ensures d == NegativeSleep ==> Coils() == StepPhases(direction)[0]
      ensures d == Completed && StepsFor(angleDeg) > 0 ==> Coils() == StepPhases(direction)[3]
      ensures d == Completed && StepsFor(angleDeg) <= 0 ==> Coils() == old(Coils())
    {
      d := StepMotor(StepsFor(angleDeg), direction, Some(rpm));
    }
  }
}
